=== FILE: README.md ===
# Parallax scroll engine — a Dafny model

The page is a horizontally scrolling scene of layers. Each layer moves at its
own speed, so the layers drift apart as the view scrolls (parallax). The scene
keeps one scroll state `{target, current, max, ease}`:

- the wheel and the arrow keys move `target` and clamp it to `[0, max]`;
- a resize recomputes `max` and clamps both values;
- each animation frame eases `current` toward `target`, snapping once the
  gap is under 0.1.

From that state every frame derives:

- the scroll progress;
- each layer's transform;
- the start-screen fade;
- the end-screen reveal and whether the end screen takes pointer input;
- the title font (cycled near the start, at most once per 160 ms);
- the frame shown by frame-cycling layers.

At start-up, `generateLayers` turns the layer list into positioned layers.
Layers without an `x` are placed at a running cursor, and every `y` is
clamped to the vertical band.

The model is pure Dafny: datatypes for the state and the layers, and total
functions for every transition. One module corresponds to each part of
`script.js`:

| module | file | models |
|---|---|---|
| `Basics` | basics.dfy | `clamp`, `Math.min`/`max`/`abs`, JavaScript's truncating `%`, optional values |
| `Scroll` | scroll.dfy | the scroll state, `updateBounds`, `onWheel`, `onKey`, the easing step |
| `Overlay` | overlay.dfy | progress, start fade, end reveal, end-screen interactivity |
| `Title` | title.dfy | `updateTitle` |
| `Text` | text.dfy | `join`, `split` on one character, `trim` |
| `Layout` | layout.dfy | the position logic of `generateLayers` |
| `Frames` | frames.dfy | `updateFrames` and the frame-list round trip |
| `Engine` | engine.dfy | `render` as a whole, the event handlers, start-up |

Modelling choices:

- Numbers are exact reals. JavaScript truthiness is written out wherever the
  code relies on it:
  - the wheel uses `deltaX` only when `deltaY` is 0;
  - a speed that is 0 or absent becomes 1;
  - an fps that is 0 or absent becomes 6;
  - a missing `rotate` reads as 0;
  - a frame list that joins to `""` is skipped like an absent one.
- `Math.sin` is a parameter `sine: real -> real`. The layout's bounds hold
  for every function.
- The time-driven angle of spinning layers arrives as event data.
- The page's measured widths arrive as event data.
- Browser scheduling becomes an explicit list of events folded by
  `Engine.Run`.
- The frame map is keyed by the layer's position in the layer list. The code
  keys it by the element, which is the same thing here: the layers are read
  back in the order they were appended.

Easing from 0 toward 500 at ease 0.08 snaps to the target on frame 103, the
first `n` at which `500 · 0.92ⁿ` drops below 0.1. The model proves that the
target is always reached (`Scroll.EasingReachesTarget`) and claims no frame
count.

## Model

| member | source | states |
|---|---|---|
| Basics.Clamp | script.js:92-94 | The result lies in `[lo, hi]` when `lo <= hi`. A value already in range is unchanged. Below the range it gives `lo`, above it `hi`. When the bounds cross, `hi` wins. |
| Basics.ClampMonotone | script.js:92-94 | `clamp` preserves order, so the overlay values move monotonically with progress. |
| Basics.JsRem | script.js:129 | JavaScript's `%` for a positive modulus. The result has the sign of the dividend and magnitude below `n`. It agrees with the Euclidean remainder for non-negative dividends. |
| Scroll.InitialValid | script.js:9-14 | The initial state (0, 0, 0, 0.08) satisfies the clamping invariant with an ease in (0, 1]. |
| Scroll.Resize | script.js:96-101 | `max` is `sceneWidth - innerWidth` or 0 and never negative. Afterwards target and current lie in `[0, max]`. Each keeps its value if it already fits and otherwise goes to the nearer bound. The ease is untouched. |
| Scroll.ResizeIdempotent | script.js:96-101 | A second `updateBounds` with the same measurements changes nothing. |
| Scroll.WheelDelta | script.js:211 | `deltaY || deltaX`: the vertical delta, or the horizontal one when the vertical one is 0. |
| Scroll.Wheel | script.js:209-213 | Only the target moves. It moves by exactly the delta while that stays in `[0, max]`, otherwise to the crossed bound. The clamping invariant is preserved. |
| Scroll.WheelFollowsDelta | script.js:209-213 | Under the invariant the target never moves against the sign of the delta. |
| Scroll.Key | script.js:215-224 | Forward arrows give `min(target + 120, max)` and back arrows `max(target - 120, 0)`. Every other key leaves the state unchanged. Only the target changes, and the invariant is preserved. |
| Scroll.KeyForwardBack | script.js:215-224 | With room to move, a forward arrow followed by a back arrow restores the state exactly. |
| Scroll.Tick | script.js:165-168 | Target, max and ease are untouched. The new current lies between the old current and the target, and the gap never grows. For an ease in `[0, 1]`, the step snaps to the target exactly when the eased gap `(1 - ease) · gap` is under 0.1; otherwise the new gap is exactly `(1 - ease)` times the old one, with its sign. After the step, the gap is either 0 or at least 0.1. The invariant is preserved. |
| Scroll.Eased | script.js:165 | For an ease in `[0, 1]`, the eased value lies between `current` and `target` on whichever side the target is. The remaining gap is `(1 - ease)` times the old one. |
| Scroll.EasedGap | script.js:165-166 | The distance left after one easing step is `(1 - ease)` times the distance before it. This is the quantity the snap test compares with 0.1. |
| Scroll.Ticks | script.js:164-168 | Repeated frames keep target, max and ease, and keep the invariant. |
| Scroll.EasingReachesTarget | script.js:165-168 | For any ease in (0, 1], some finite number of frames brings `current` exactly to a fixed `target`. |
| Overlay.Progress | script.js:170 | Progress is 0 when `max` is 0 or nothing has been scrolled, otherwise the fraction with `progress * max == current`. Under the invariant it lies in `[0, 1]` and is 1 exactly at the end of the scene. |
| Overlay.ProgressMonotone | script.js:170 | Progress does not decrease as `current` grows over a fixed extent. |
| Overlay.StartFade | script.js:193-196 | The opacity is in `[0, 1]`. It is fully shown at progress 0, gone from progress 1/6 on, and strictly in between in between. |
| Overlay.StartFadeLinear | script.js:194 | On `[0, 1/6]` the opacity is `1 - 6 · progress`, so any two progress values differ in opacity by six times their distance. |
| Overlay.StartFadeNonIncreasing | script.js:194 | The start screen only fades out as progress grows. |
| Overlay.EndReveal | script.js:198-202 | The opacity is in `[0, 1]`. It is hidden up to 0.76, fully shown from 0.94, and strictly in between inside the window. |
| Overlay.EndRevealLinear | script.js:199-201 | Inside `[0.76, 0.94]` the opacity is `(progress - 0.76) / 0.18`, so it grows in proportion to progress across the window. |
| Overlay.EndRevealNonDecreasing | script.js:201 | The end screen only becomes more visible as progress grows. |
| Overlay.EndInteractiveThreshold | script.js:203 | The end screen takes pointer input exactly when progress exceeds 0.922, where the reveal passes 0.9. |
| Overlay.OverlaysAtEnds | script.js:193-204 | Under the invariant: at the start the start screen is shown and the end screen hidden. At the end of a non-empty scene the reverse holds, and the end screen is interactive. |
| Title.UpdateTitle | script.js:103-118 | Without a title element nothing changes. Below progress 0.03 and more than 160 ms after the last swap, the index advances by one modulo 5, the swap time becomes `now` and that font is written. Within the debounce nothing changes. From 0.03 on, the first font is written and the index and swap time are untouched. The index stays in range. |
| Title.SpacedFramesCycleFonts | script.js:108-113 | Near the start, with frames spaced more than 160 ms apart, `k` frames move the index `k` places round the five-font cycle. The last swap is the last frame. |
| Title.PastStartFreezesCycle | script.js:115-117 | Past the start zone, any run of frames keeps the index and swap time and leaves the first font shown. |
| Text.Join | script.js:77 | `parts.join(glue)`: the pieces in order with `glue` between neighbours, `""` for no pieces and the piece itself for one. |
| Text.Split | script.js:128 | `split` on one character always yields at least one piece. No piece contains the separator, and joining the pieces with it gives the input back. |
| Text.Trim | script.js:128 | `trim` gives a slice `s[a..b]` of its input with only white space before `a` and from `b` on, and no white space at either end of the result. So it never lengthens the text and only keeps characters of the input. |
| Text.TrimAfterSpace | script.js:77-128 | `trim` removes exactly the single space that the `", "` glue puts in front of an edge-clean name. |
| Text.SplitJoin | script.js:77-128 | `split` inverts `join` on the same separator for non-empty lists whose pieces do not contain it. |
| Layout.ClampY | script.js:67-74 | The vertical clamp keeps `y` in `[verticalMin, verticalMax]` when the band is well formed, and leaves in-band values alone. A value above the band goes to `verticalMax` and one below it to `verticalMin`. When the bounds cross, `verticalMin` wins, unlike `clamp`. |
| Layout.AutoY | script.js:71-72 | The height is the band's midpoint plus half its height times `sin(index · 0.6 + autoX · 0.0005)`, so it is affine in the sine. For a sine value in `[-1, 1]` it lies in the band: at the bottom for -1, in the middle for 0 and at the top for 1. |
| Layout.Place | script.js:56-78 | A layer gets its explicit `x` or else the cursor, and a `y` inside the band whatever the wave gives. Without an explicit `y` it takes the wave height `AutoY` clamped to the band. An explicit `y` is kept when in band and otherwise goes to the nearer bound. Speed is `speed \|\| 1` and `rotate` defaults to 0. An fps is stored exactly when it is given and non-zero. The layer spins exactly when its class list contains `spinning`. Its frame list is the `", "` join of the given one, or empty when none was given. |
| Layout.Cursor | script.js:32-86 | `autoX` after the first `n` layers: it starts at `startOffset + horizontal` and moves `0.85 · horizontal` after each layer without `x`. With non-negative spacing it never falls below its start. |
| Layout.CursorCountsAutoPlaced | script.js:32-86 | After any number of layers, the cursor is `startOffset + horizontal` plus `0.85 * horizontal` once per layer without `x`. A layer with `x` neither advances nor resets it. |
| Layout.PlaceFirstAt | script.js:35-87 | In the list placed so far, layer `i` is placed from its own descriptor, at position `i`, with the cursor left by the layers before it. |
| Layout.GenerateLayers | script.js:31-90 | There is one placed layer per descriptor, in order. Each is placed at position `i` with the cursor left by the layers before it. Auto-placed layers get that cursor and explicit ones keep their `x`. Every `y` is in the band. |
| Layout.AutoPlacedInOrder | script.js:32-86 | With positive spacing, every later position's cursor is at least one step right of an auto-placed layer, so auto-placed layers appear left to right in list order. |
| Layout.ShippedTagClampedToBand | config.js:222-245 | The shipped "GET STARTED" tag asks for `y: 720` in a 60–600 band and is placed at 600. |
| Frames.ParseFrames | script.js:128 | The parsed list is never empty. Every entry is free of commas and of white space at its ends. |
| Frames.TrimAll | script.js:128 | Every piece is trimmed, one for one. |
| Frames.FrameListRoundTrip | script.js:77-128 | Storing a non-empty list of comma-free, edge-clean names with `join(", ")` and reading it back with `split(",")` and `trim` gives the original list. |
| Frames.FpsOf | script.js:127 | The stored frame rate, or 6 when none is stored. |
| Frames.FrameIndex | script.js:129 | `floor(now / 1000 * fps) % n` with JavaScript's `%`. The result is in `(-n, n)` always, and in `[0, n)` for `now >= 0` and `fps > 0`. |
| Frames.FrameClockMonotone | script.js:129 | At a positive rate the frame clock never runs backwards. |
| Frames.StepView | script.js:122-141 | A layer without a frame list is skipped. Otherwise the stored index becomes the chosen one. The entry changes exactly when the stored index differs, and then the written image is `assets/` plus the chosen name, as an image `src` or as a CSS `url(...)`. |
| Frames.StepViewIdempotent | script.js:130-136 | A second pass at the same instant writes nothing. |
| Frames.PlacedLayerShowsConfiguredFrame | script.js:77-141 | A layer placed from a storable frame list always stores an index within the list. Whenever it writes, it shows the configured name at that index. |
| Frames.StepEntry | script.js:130-136 | The map entry takes one step, and no other entry changes. |
| Frames.StepEntries | script.js:121-142 | The `forEach` steps each of the first `n` entries once, from the view it had before. Later entries are untouched. |
| Frames.UpdateFrames | script.js:120-143 | Entries beyond the layer list are untouched. |
| Frames.UpdateFramesSteps | script.js:120-143 | Each layer's entry receives exactly that layer's step, from its previous view. |
| Frames.UpdateFramesIdempotent | script.js:120-143 | Running `updateFrames` twice at the same instant leaves every entry as the first run left it. |
| Engine.InitialStateValid | script.js:9-26 | The start-up state satisfies the engine invariant. |
| Engine.ScrollRotation | script.js:183-184 | The rotation of a non-spinning layer is 0 at progress 0 and `rotate` at progress 1, and between the two for any progress in `[0, 1]`. |
| Engine.LayerTransform | script.js:172-187 | The vertical position is the placed `y`, and with no scroll the offset is the placed `x`. A spinning layer turns by the time angle. Any other layer turns by `rotate * progress`: 0 at the start, `rotate` at the end, and between the two in between. |
| Engine.RotationFollowsProgress | script.js:183-184 | For a non-spinning layer, the rotation changes by exactly `rotate` times the change in progress, so it is linear in progress. |
| Engine.ParallaxShift | script.js:176 | Scrolling by `d` shifts a layer by `-speed * d`. |
| Engine.Render | script.js:164-204 | A frame eases the scroll by one `Tick` and computes progress from the eased state. From that progress it updates the title with `UpdateTitle` and the frame map with `UpdateFrames`. It gives each layer its `LayerTransform`, the start screen `StartFade` and the end screen `EndReveal`, so the frame inherits their contracts. It keeps target, max and ease and preserves the invariant. Overlay values are present exactly when their elements exist and lie in `[0, 1]`. The end screen is interactive exactly when progress exceeds 0.922. |
| Engine.RenderAtStart | script.js:164-187 | At rest at the start, a frame keeps `current` at 0, layers sit at their placed `x`, and no non-spinning layer is rotated. |
| Engine.Step | script.js:96-224 | A resize applies `Resize`, a wheel turn `Wheel` and a key press `Key` to the scroll state alone. An animation frame takes the state that `Render` produces. Every event preserves the invariant. Resize, wheel and key events leave the title and frame state alone; wheel and key events leave `current` alone; frames leave `target` alone. |
| Engine.Run | script.js:226-233 | The state after a list of events, applied in order. The ease never changes. Without resizes `max` is unchanged. Without animation frames the title and frame map are unchanged. With only wheel and key events `current` is unchanged. |
| Engine.RunAppend | script.js:226-233 | Running two lists of events one after the other is the same as running them joined. |
| Engine.RunKeepsInvariant | script.js:226-233 | The clamping invariant survives any sequence of resizes, wheel turns, key presses and frames. |
| Engine.RunFromStartIsBounded | script.js:226-233 | From start-up, whatever happens, target and current stay in `[0, max]`, the font index names a font, and progress is in `[0, 1]`. |
| Engine.OneFrameOfEasing | script.js:165-168 | Target 500 over an extent of 1000, eased from 0 at 0.08, is drawn at 40 after one frame. |
| Engine.OversizedYClamped | script.js:67-68 | An explicit `y: 9999` is placed at `verticalMax` 600. |
| Engine.TitleSwapsNearStart | script.js:108-112 | 200 ms in, at progress 0.02, the title moves from the first font to the second. |
| Engine.EndScreenAtEightyPercent | script.js:198-203 | At progress 0.80 the end screen is two ninths revealed and not yet interactive. |

## Left out

- Element creation, class lists, `appendChild` and `querySelectorAll` (script.js:36-57, 81, 89): the model keeps the resolved numbers directly instead of the `dataset` strings and their `Number(...)` re-parsing. A class string with a leading or trailing space, or two adjacent spaces, splits into an empty piece, and `classList.add("")` would throw. A class token containing a tab or a newline makes `classList.add` throw `InvalidCharacterError`. Neither path is modelled.
- A layer whose `type` is not `"image"`, `"text"` or `"video"` (script.js:38-54): no element is created, `el.classList.add` at script.js:56 throws a `TypeError`, and that aborts `generateLayers` and the rest of the start-up code, so no listener and no animation frame is ever registered (script.js:227-233). `Layout.Kind` has exactly the three valid types, so the model excludes this crash.
- `event.preventDefault()` in the wheel handler (script.js:210): it stops the browser's own scrolling and has no effect on the state.
- `requestAnimationFrame` and the event-listener registrations (script.js:206, 230-233): these become the explicit event list of `Engine.Run`.
- The video scrub `updateVideo` (script.js:145-162): it reads and writes the browser-owned `readyState`, `duration` and `currentTime`.
- The spinning angle `(now / 40) % 360` (script.js:180): it is a per-frame parameter.
- `Math.sin` (script.js:71): it is an arbitrary function parameter.
- The measured scene and viewport widths (script.js:97-98): they are inputs of the resize event.
- `window.innerHeight` (script.js:33): it is read but never used.
- IEEE-754 rounding, NaN and infinities: numbers are exact reals, and a non-numeric value cannot arise from the resolved numbers kept here.
- `toFixed(3)` formatting and the CSS transform strings (script.js:181, 185, 195, 202): the model keeps the numbers they format.

=== FILE: basics.dfy ===
/** Small building blocks shared by the engine: an optional value for the
    descriptor fields that may be `undefined`, and the exact-real versions
    of the `Math.min`, `Math.max`, `Math.abs` and `clamp` helpers, plus the
    truncating `%` of JavaScript on integers. */
module Basics {

  /** A value that may be absent (`undefined` in JavaScript). */
  datatype Option<+T> = None | Some(value: T) {
    function GetOr(default: T): (r: T)
      ensures Some? ==> r == value
      ensures None? ==> r == default
    {
      match this
      case Some(v) => v
      case None => default
    }
  }

  function Min(a: real, b: real): (r: real)
    ensures r <= a && r <= b
    ensures r == a || r == b
  {
    if a <= b then a else b
  }

  function Max(a: real, b: real): (r: real)
    ensures r >= a && r >= b
    ensures r == a || r == b
  {
    if a >= b then a else b
  }

  function Abs(x: real): (r: real)
    ensures r >= 0.0
    ensures r == x || r == -x
  {
    if x < 0.0 then -x else x
  }

  /** `clamp(value, min, max)`: `Math.min(Math.max(value, min), max)`.
      When the bounds are crossed (`hi < lo`) the upper bound wins. */
  function Clamp(value: real, lo: real, hi: real): (r: real)
    ensures lo <= hi ==> lo <= r <= hi
    ensures lo <= value <= hi ==> r == value
    ensures value < lo && lo <= hi ==> r == lo
    ensures hi < value ==> r == hi
    ensures hi < lo ==> r == hi
  {
    Min(Max(value, lo), hi)
  }

  lemma ClampMonotone(a: real, b: real, lo: real, hi: real)
    requires a <= b
    ensures Clamp(a, lo, hi) <= Clamp(b, lo, hi)
  {
  }

  lemma MulNonneg(a: real, b: real)
    requires a >= 0.0 && b >= 0.0
    ensures a * b >= 0.0
  {
  }

  /** A fraction in [0, 1] of a signed distance stays between 0 and it. */
  lemma ScaledWithin(d: real, fraction: real, scaled: real)
    requires scaled == d * fraction
    ensures 0.0 <= fraction <= 1.0 && d >= 0.0 ==> 0.0 <= scaled <= d
    ensures 0.0 <= fraction <= 1.0 && d <= 0.0 ==> d <= scaled <= 0.0
  {
    if 0.0 <= fraction <= 1.0 {
      if d >= 0.0 {
        MulNonneg(d, fraction);
        MulNonneg(d, 1.0 - fraction);
      } else {
        MulNonneg(-d, fraction);
        MulNonneg(-d, 1.0 - fraction);
      }
    }
  }

  /** Scaling by a non-negative factor scales the magnitude by it. */
  lemma AbsScaled(c: real, x: real)
    requires c >= 0.0
    ensures Abs(c * x) == c * Abs(x)
  {
    if x >= 0.0 {
      MulNonneg(c, x);
    } else {
      MulNonneg(c, -x);
      assert c * x == -(c * -x);
    }
  }

  /** A part of a positive whole, divided by the whole, lies in [0, 1]. */
  lemma UnitFraction(a: real, m: real)
    requires 0.0 <= a <= m && m > 0.0
    ensures 0.0 <= a / m <= 1.0
  {
    var inv := 1.0 / m;
    assert inv * m == 1.0;
    assert inv > 0.0 by {
      if inv <= 0.0 {
        MulNonneg(-inv, m);
      }
    }
    MulNonneg(a, inv);
    MulNonneg(m - a, inv);
    assert a / m == a * inv;
    assert (m - a) * inv == 1.0 - a / m;
  }

  /** JavaScript's `%` on integers: the remainder truncates toward zero, so
      it takes the sign of the dividend. */
  function JsRem(a: int, n: int): (r: int)
    requires n > 0
    ensures -n < r < n
    ensures a >= 0 ==> 0 <= r
    ensures a <= 0 ==> r <= 0
    ensures a >= 0 ==> r == a % n
    ensures a < 0 ==> r == -((-a) % n)
  {
    if a >= 0 then a % n else -((-a) % n)
  }
}

=== FILE: engine.dfy ===
/** The running page (script.js, `render`, the event handlers and start-up):
    one engine state, changed by resize, wheel, key and animation-frame
    events. The browser's scheduling becomes an explicit list of events;
    the sizes it measures and the spin angle of time-driven layers arrive
    as event data. */
module Engine {
  import opened Basics
  import opened Scroll
  import opened Overlay
  import opened Title
  import opened Layout
  import opened Frames

  /** A layer's on-screen transform: `translate3d(offsetX, y, 0)` followed
      by `rotate(rotation)`. */
  datatype Transform = Transform(offsetX: real, y: real, rotation: real)

  /** What `render` reads from the page: the placed layers and which of the
      optional title, start-screen and end-screen elements exist. */
  datatype Page = Page(layers: seq<PlacedLayer>, hasTitle: bool, hasStart: bool, hasEnd: bool)

  /** Everything the program keeps between callbacks. */
  datatype EngineState = EngineState(scroll: ScrollState, title: TitleState, frames: map<nat, FrameView>)

  /** What one frame writes to the page: one transform per layer, and the
      overlay opacities and end-screen interactivity when those elements
      exist. */
  datatype Frame = Frame(
    transforms: seq<Transform>,
    startOpacity: Option<real>,
    endOpacity: Option<real>,
    endInteractive: Option<bool>)

  datatype Rendered = Rendered(state: EngineState, frame: Frame)

  const InitialState: EngineState := EngineState(Scroll.Initial, InitialTitle, map[])

  /** Invariant of the running page: the scroll state is valid and the font
      index names one of the title fonts. */
  predicate EngineValid(st: EngineState) {
    Valid(st.scroll) && TitleValid(st.title)
  }

  lemma InitialStateValid()
    ensures EngineValid(InitialState)
  {
  }

  /** The rotation of a layer that does not spin: `rotate * progress`, so
      none at the start of the scene and the full `rotate` at its end. */
  function ScrollRotation(rotate: real, progress: real): (angle: real)
    ensures progress == 0.0 ==> angle == 0.0
    ensures progress == 1.0 ==> angle == rotate
    ensures 0.0 <= progress <= 1.0 ==> (0.0 <= angle <= rotate || rotate <= angle <= 0.0)
  {
    var angle := rotate * progress;
    ScaledWithin(rotate, progress, angle);
    angle
  }

  /** The per-layer part of `render`: the layer moves left by `speed` pixels
      per pixel scrolled; a spinning layer turns by the time-driven `spin`
      angle, any other by its `rotate` scaled by progress. */
  function LayerTransform(l: PlacedLayer, current: real, progress: real, spin: real): (t: Transform)
    ensures t.y == l.y
    ensures current == 0.0 ==> t.offsetX == l.x
    ensures l.spinning ==> t.rotation == spin
    ensures !l.spinning && progress == 0.0 ==> t.rotation == 0.0
    ensures !l.spinning && progress == 1.0 ==> t.rotation == l.rotate
    ensures !l.spinning && 0.0 <= progress <= 1.0 ==>
              (0.0 <= t.rotation <= l.rotate || l.rotate <= t.rotation <= 0.0)
  {
    var rotation := if l.spinning then spin else ScrollRotation(l.rotate, progress);
    Transform(l.x - current * l.speed, l.y, rotation)
  }

  /** The rotation of a layer that does not spin is linear in progress:
      a change of progress by `d` turns it by `rotate * d`. */
  lemma RotationFollowsProgress(l: PlacedLayer, current: real, p1: real, p2: real, spin: real)
    ensures !l.spinning ==>
              LayerTransform(l, current, p2, spin).rotation - LayerTransform(l, current, p1, spin).rotation
              == l.rotate * (p2 - p1)
  {
  }

  /** Parallax: scrolling by `d` pixels shifts every layer by `-speed * d`,
      so two layers drift apart in proportion to the difference of their
      speeds. */
  lemma ParallaxShift(l: PlacedLayer, c1: real, c2: real, progress: real, spin: real)
    ensures LayerTransform(l, c2, progress, spin).offsetX - LayerTransform(l, c1, progress, spin).offsetX
         == -(c2 - c1) * l.speed
  {
  }

  /** One call of `render(now)` (the video scrub is not modelled). */
  function Render(page: Page, now: real, spin: real, st: EngineState): (r: Rendered)
    ensures r.state.scroll.target == st.scroll.target
    ensures r.state.scroll.max == st.scroll.max && r.state.scroll.ease == st.scroll.ease
    ensures EngineValid(st) ==> EngineValid(r.state)
    ensures |r.frame.transforms| == |page.layers|
    ensures forall i :: 0 <= i < |page.layers| ==> r.frame.transforms[i].y == page.layers[i].y
    ensures r.frame.startOpacity.Some? <==> page.hasStart
    ensures r.frame.endOpacity.Some? <==> page.hasEnd
    ensures r.frame.endInteractive.Some? <==> page.hasEnd
    ensures r.frame.startOpacity.Some? ==> 0.0 <= r.frame.startOpacity.value <= 1.0
    ensures r.frame.endOpacity.Some? ==> 0.0 <= r.frame.endOpacity.value <= 1.0
    ensures r.frame.endInteractive == Some(true) ==> r.frame.endOpacity.value > InteractiveAbove
    ensures page.hasEnd ==>
              (r.frame.endInteractive == Some(true) <==> Progress(r.state.scroll) > InteractiveProgress)
    ensures r.state.scroll == Tick(st.scroll)
    ensures r.state.title == UpdateTitle(page.hasTitle, now, Progress(r.state.scroll), st.title)
    ensures r.state.frames == UpdateFrames(now, page.layers, st.frames)
    ensures forall i :: 0 <= i < |page.layers| ==>
              r.frame.transforms[i] == LayerTransform(page.layers[i], r.state.scroll.current, Progress(r.state.scroll), spin)
    ensures page.hasStart ==> r.frame.startOpacity == Some(StartFade(Progress(r.state.scroll)))
    ensures page.hasEnd ==> r.frame.endOpacity == Some(EndReveal(Progress(r.state.scroll)))
  {
    var scroll := Tick(st.scroll);
    var progress := Progress(scroll);
    var transforms := seq(|page.layers|, i requires 0 <= i < |page.layers| =>
                            LayerTransform(page.layers[i], scroll.current, progress, spin));
    var title := UpdateTitle(page.hasTitle, now, progress, st.title);
    var frames := UpdateFrames(now, page.layers, st.frames);
    var start := (if page.hasStart then Some(StartFade(progress)) else None);
    var endOpacity := EndReveal(progress);
    var ending := (if page.hasEnd then Some(endOpacity) else None);
    var interactive := (if page.hasEnd then Some(EndInteractive(progress)) else None);
    EndInteractiveThreshold(progress);
    Rendered(EngineState(scroll, title, frames), Frame(transforms, start, ending, interactive))
  }

  /** Under the invariant, the frame's transforms follow the eased offset:
      at progress 0 nothing has rotated, and a layer with no scroll has not
      moved from its placed `x`. */
  lemma RenderAtStart(page: Page, now: real, spin: real, st: EngineState)
    requires EngineValid(st)
    requires st.scroll.target == 0.0 && st.scroll.current == 0.0
    ensures var r := Render(page, now, spin, st);
            r.state.scroll.current == 0.0 &&
            forall i :: 0 <= i < |page.layers| ==>
              r.frame.transforms[i].offsetX == page.layers[i].x &&
              (!page.layers[i].spinning ==> r.frame.transforms[i].rotation == 0.0)
  {
    var r := Render(page, now, spin, st);
    var scroll := Tick(st.scroll);
    assert scroll.current == 0.0;
    assert r.state.scroll == scroll;
    assert Progress(scroll) == 0.0;
    forall i | 0 <= i < |page.layers|
      ensures r.frame.transforms[i] == LayerTransform(page.layers[i], 0.0, 0.0, spin)
    {
    }
  }

  /** The events the page reacts to. `Resized` carries the measured scene
      and viewport widths, `AnimationFrame` the frame time and the angle of
      time-driven layers. */
  datatype Event =
    | Resized(sceneWidth: real, innerWidth: real)
    | Wheeled(deltaX: real, deltaY: real)
    | KeyDown(key: string)
    | AnimationFrame(now: real, spin: real)

  /** The state after one event. */
  function Step(page: Page, st: EngineState, e: Event): (r: EngineState)
    ensures EngineValid(st) ==> EngineValid(r)
    ensures !e.AnimationFrame? ==> r.title == st.title && r.frames == st.frames
    ensures e.Wheeled? || e.KeyDown? ==> r.scroll.current == st.scroll.current
    ensures e.AnimationFrame? ==> r.scroll.target == st.scroll.target
    ensures e.Resized? ==> r == st.(scroll := Resize(st.scroll, e.sceneWidth, e.innerWidth))
    ensures e.Wheeled? ==> r == st.(scroll := Wheel(st.scroll, e.deltaX, e.deltaY))
    ensures e.KeyDown? ==> r == st.(scroll := Key(st.scroll, e.key))
    ensures e.AnimationFrame? ==> r == Render(page, e.now, e.spin, st).state
  {
    match e
    case Resized(sceneWidth, innerWidth) => st.(scroll := Resize(st.scroll, sceneWidth, innerWidth))
    case Wheeled(deltaX, deltaY) => st.(scroll := Wheel(st.scroll, deltaX, deltaY))
    case KeyDown(key) => st.(scroll := Key(st.scroll, key))
    case AnimationFrame(now, spin) => Render(page, now, spin, st).state
  }

  /** The state after a sequence of events, in order. */
  function Run(page: Page, st: EngineState, events: seq<Event>): (r: EngineState)
    ensures r.scroll.ease == st.scroll.ease
    ensures (forall i :: 0 <= i < |events| ==> !events[i].Resized?) ==> r.scroll.max == st.scroll.max
    ensures (forall i :: 0 <= i < |events| ==> !events[i].AnimationFrame?) ==>
              r.title == st.title && r.frames == st.frames
    ensures (forall i :: 0 <= i < |events| ==> events[i].Wheeled? || events[i].KeyDown?) ==>
              r.scroll.current == st.scroll.current
    decreases |events|
  {
    if |events| == 0 then st else Run(page, Step(page, st, events[0]), events[1..])
  }

  /** Running two batches of events one after the other is running them as
      one sequence. */
  lemma {:induction false} RunAppend(page: Page, st: EngineState, a: seq<Event>, b: seq<Event>)
    ensures Run(page, st, a + b) == Run(page, Run(page, st, a), b)
    decreases |a|
  {
    if |a| == 0 {
      assert a + b == b;
    } else {
      assert (a + b)[0] == a[0];
      assert (a + b)[1..] == a[1..] + b;
      RunAppend(page, Step(page, st, a[0]), a[1..], b);
    }
  }

  /** The clamping invariant survives any sequence of resizes, wheel turns,
      key presses and frames: `0 <= target <= max` and
      `0 <= current <= max` hold throughout. */
  lemma {:induction false} RunKeepsInvariant(page: Page, st: EngineState, events: seq<Event>)
    requires EngineValid(st)
    ensures EngineValid(Run(page, st, events))
    decreases |events|
  {
    if |events| > 0 {
      RunKeepsInvariant(page, Step(page, st, events[0]), events[1..]);
    }
  }

  /** From the page's start-up, whatever happens, target and current stay in
      [0, max], the title font index stays in range, and the progress of the
      next frame lies in [0, 1]. */
  lemma RunFromStartIsBounded(page: Page, events: seq<Event>, now: real, spin: real)
    ensures var st := Run(page, InitialState, events);
            var r := Render(page, now, spin, st);
            InBounds(st.scroll) && st.title.fontIndex < |TitleFonts| &&
            0.0 <= Progress(r.state.scroll) <= 1.0
  {
    RunKeepsInvariant(page, InitialState, events);
  }

  /** Scenario: target 500 within an extent of 1000, eased from 0 at 0.08,
      is drawn at 40 after one frame. */
  lemma OneFrameOfEasing()
    ensures Tick(ScrollState(500.0, 0.0, 1000.0, 0.08)).current == 40.0
  {
  }

  /** Scenario: an explicit `y: 9999` is placed at `verticalMax` 600. */
  lemma OversizedYClamped(sine: real -> real, index: nat, autoX: real)
    ensures Place(LayerDescriptor(ImageLayer, "", None, None, Some(9999.0), None, None, None),
                  index, autoX, ShippedSpacing, sine).y == 600.0
  {
  }

  /** Scenario: 200 ms after the last swap, at progress 0.02, the title
      moves from the first font to the second. */
  lemma TitleSwapsNearStart()
    ensures UpdateTitle(true, 200.0, 0.02, InitialTitle).fontIndex == 1
  {
  }

  /** Scenario: at progress 0.80 the end screen is two ninths revealed and
      not yet interactive. */
  lemma EndScreenAtEightyPercent()
    ensures EndReveal(0.80) == 2.0 / 9.0
    ensures !EndInteractive(0.80)
  {
  }
}

=== FILE: frames.dfy ===
/** Frame-cycling animation (script.js, `updateFrames`): a layer with a
    frame list shows the frame chosen by the clock and its frame rate, and
    its image is rewritten only when that choice changes. The frame list
    travels through the element as a `", "`-joined string and is split back
    on `","` and trimmed. */
module Frames {
  import opened Basics
  import opened Text
  import opened Layout

  /** Folder prefix of every frame image. */
  const AssetRoot: string := "assets/"
  /** Frame rate used when a layer stores none. */
  const DefaultFps: real := 6.0

  /** A layer's entry in the program's frame map (`last`, absent until the
      first write) together with the image reference last written for it. */
  datatype FrameView = FrameView(last: Option<int>, shown: Option<string>)

  const Unseen: FrameView := FrameView(None, None)

  /** `frames.split(",").map((item) => item.trim())`. */
  function ParseFrames(data: string): (list: seq<string>)
    ensures |list| >= 1
    ensures forall i :: 0 <= i < |list| ==> ',' !in list[i] && EdgeClean(list[i])
  {
    var parts := Split(data, ',');
    TrimAllClean(parts);
    TrimAll(parts)
  }

  /** Each trimmed piece has clean edges and no character its piece lacks. */
  lemma TrimAllClean(parts: seq<string>)
    ensures forall i :: 0 <= i < |parts| ==>
              EdgeClean(TrimAll(parts)[i]) && (forall c :: c in TrimAll(parts)[i] ==> c in parts[i])
  {
    var list := TrimAll(parts);
    forall i | 0 <= i < |parts|
      ensures EdgeClean(list[i]) && (forall c :: c in list[i] ==> c in parts[i])
    {
      assert list[i] == Trim(parts[i]);
    }
  }

  /** `map((item) => item.trim())`. */
  function TrimAll(parts: seq<string>): (list: seq<string>)
    ensures |list| == |parts|
    ensures forall i :: 0 <= i < |list| ==> list[i] == Trim(parts[i])
    decreases |parts|
  {
    if |parts| == 0 then [] else [Trim(parts[0])] + TrimAll(parts[1..])
  }

  /** The list after joining with `", "`, seen as pieces between plain
      commas: every piece but the first carries one leading space. */
  function Padded(fs: seq<string>): (ps: seq<string>)
    ensures |ps| == |fs|
  {
    seq(|fs|, i requires 0 <= i < |fs| => if i == 0 then fs[i] else " " + fs[i])
  }

  lemma JoinLeadingSpace(a: string, rest: seq<string>, glue: string)
    ensures Join([" " + a] + rest, glue) == " " + Join([a] + rest, glue)
  {
    if |rest| > 0 {
      assert ([" " + a] + rest)[1..] == rest;
      assert ([a] + rest)[1..] == rest;
    }
  }

  /** Joining with `", "` is joining the padded pieces with `","`. */
  lemma {:induction false} JoinAsPadded(fs: seq<string>)
    ensures Join(fs, FrameGlue) == Join(Padded(fs), ",")
    decreases |fs|
  {
    if |fs| > 1 {
      var tail := fs[1..];
      JoinAsPadded(tail);
      var pt := Padded(tail);
      assert Padded(fs)[1..] == [" " + tail[0]] + pt[1..];
      assert pt == [tail[0]] + pt[1..];
      JoinLeadingSpace(tail[0], pt[1..], ",");
    }
  }

  /** Frame names that survive the trip through the element: no comma and no
      white space at either end. */
  predicate StorableFrames(fs: seq<string>) {
    forall i :: 0 <= i < |fs| ==> ',' !in fs[i] && EdgeClean(fs[i])
  }

  /** The stored string parses back to the configured list. */
  lemma {:induction false} FrameListRoundTrip(fs: seq<string>)
    requires |fs| >= 1 && StorableFrames(fs)
    ensures ParseFrames(Join(fs, FrameGlue)) == fs
  {
    var ps := Padded(fs);
    JoinAsPadded(fs);
    forall i | 0 <= i < |ps|
      ensures ',' !in ps[i]
    {
      if i > 0 {
        assert ps[i] == [' '] + fs[i];
      }
    }
    SplitJoin(ps, ',');
    var list := ParseFrames(Join(fs, FrameGlue));
    forall i | 0 <= i < |fs|
      ensures list[i] == fs[i]
    {
      if i == 0 {
        TrimClean(fs[i]);
      } else {
        TrimAfterSpace(fs[i]);
      }
    }
  }

  /** `Number(layer.dataset.fps || "6")`: the stored rate, or six. */
  function FpsOf(l: PlacedLayer): (fps: real)
    ensures l.fps.None? ==> fps == DefaultFps
    ensures l.fps.Some? ==> fps == l.fps.value
  {
    l.fps.GetOr(DefaultFps)
  }

  /** `Math.floor((now / 1000) * fps) % count`, with JavaScript's `%`. */
  function FrameIndex(now: real, fps: real, count: nat): (index: int)
    requires count > 0
    ensures -(count as int) < index < count
    ensures now >= 0.0 && fps > 0.0 ==> 0 <= index < count
    ensures now >= 0.0 && fps > 0.0 ==> index == FrameClock(now, fps) % count
  {
    JsRem(FrameClock(now, fps), count)
  }

  /** Whole frames elapsed since time zero. */
  function FrameClock(now: real, fps: real): (clock: int)
    ensures now >= 0.0 && fps >= 0.0 ==> clock >= 0
  {
    if now >= 0.0 && fps >= 0.0 then MulNonneg(now / 1000.0, fps); (now / 1000.0 * fps).Floor
    else (now / 1000.0 * fps).Floor
  }

  /** At a positive rate the frame clock never runs backwards, so the index
      only moves forward round the cycle. */
  lemma FrameClockMonotone(now1: real, now2: real, fps: real)
    requires now1 <= now2 && fps > 0.0
    ensures FrameClock(now1, fps) <= FrameClock(now2, fps)
  {
    MulNonneg((now2 - now1) / 1000.0, fps);
  }

  /** `list[index]` as a template string sees it: out of range it reads
      `undefined`. */
  function FrameName(list: seq<string>, index: int): (name: string)
    ensures 0 <= index < |list| ==> name == list[index]
  {
    if 0 <= index < |list| then list[index] else "undefined"
  }

  /** The image reference written for a frame: the `src` of an image
      element, a CSS `url(...)` background for any other element. */
  function FrameSource(l: PlacedLayer, name: string): string {
    if l.kind == ImageLayer then AssetRoot + name else "url(" + AssetRoot + name + ")"
  }

  /** The index the clock picks for a layer with a frame list. */
  function FrameChoice(now: real, l: PlacedLayer): int {
    FrameIndex(now, FpsOf(l), |ParseFrames(l.frames)|)
  }

  /** One layer's turn in `updateFrames`: a layer without a frame list is
      skipped; otherwise the entry is rewritten, with the chosen index and
      its image, exactly when the stored index differs from the choice. */
  function StepView(now: real, l: PlacedLayer, v: FrameView): (r: FrameView)
    ensures l.frames == "" ==> r == v
    ensures l.frames != "" ==> r.last == Some(FrameChoice(now, l))
    ensures r != v <==> l.frames != "" && v.last != Some(FrameChoice(now, l))
    ensures r != v ==> r.shown == Some(FrameSource(l, FrameName(ParseFrames(l.frames), r.last.value)))
  {
    if l.frames == "" then v
    else
      var list := ParseFrames(l.frames);
      var index := FrameChoice(now, l);
      if v.last == Some(index) then v
      else FrameView(Some(index), Some(FrameSource(l, FrameName(list, index))))
  }

  /** A second pass at the same instant writes nothing. */
  lemma StepViewIdempotent(now: real, l: PlacedLayer, v: FrameView)
    ensures StepView(now, l, StepView(now, l, v)) == StepView(now, l, v)
  {
  }

  /** A layer placed from a list of storable frame names shows one of those
      names, at the index the clock picks, whenever it is written. */
  lemma {:induction false} PlacedLayerShowsConfiguredFrame(d: LayerDescriptor, index: nat, autoX: real, sp: Spacing,
                                        sine: real -> real, now: real, v: FrameView)
    requires d.frames.Some? && |d.frames.value| >= 1 && StorableFrames(d.frames.value)
    requires forall i :: 0 <= i < |d.frames.value| ==> d.frames.value[i] != ""
    requires now >= 0.0 && (d.fps.None? || d.fps.value > 0.0)
    ensures var l := Place(d, index, autoX, sp, sine);
            var r := StepView(now, l, v);
            r.last.Some? && 0 <= r.last.value < |d.frames.value| &&
            (r != v ==> r.shown == Some(FrameSource(l, d.frames.value[r.last.value])))
  {
    var fs := d.frames.value;
    var l := Place(d, index, autoX, sp, sine);
    FrameListRoundTrip(fs);
    assert l.frames == Join(fs, FrameGlue);
    assert l.frames != "" by {
      if |fs| == 1 {
        assert l.frames == fs[0];
      } else {
        assert |Join(fs, FrameGlue)| >= |fs[0]|;
      }
    }
  }

  /** The program's frame map keyed by layer position, with the views of
      layers never written reading as `Unseen`. */
  function ViewAt(book: map<nat, FrameView>, i: nat): FrameView {
    if i in book then book[i] else Unseen
  }

  lemma ViewAtUpdate(book: map<nat, FrameView>, i: nat, v: FrameView)
    ensures ViewAt(book[i := v], i) == v
    ensures forall k: nat :: k != i ==> ViewAt(book[i := v], k) == ViewAt(book, k)
  {
  }

  /** Gives entry `i` of the map its turn `step`: the map is written only
      when the entry's view changes. */
  function StepEntry(i: nat, step: FrameView -> FrameView, book: map<nat, FrameView>): (r: map<nat, FrameView>)
    ensures ViewAt(r, i) == step(ViewAt(book, i))
    ensures forall k: nat :: k != i ==> ViewAt(r, k) == ViewAt(book, k)
  {
    var v := step(ViewAt(book, i));
    if v == ViewAt(book, i) then book
    else
      ViewAtUpdate(book, i, v);
      book[i := v]
  }

  /** The `forEach` of `updateFrames` over the first `n` positions, in
      order, entry `k` taking the turn `step(k)`: each entry is stepped once,
      from the view it had before, and entries from `n` on are untouched. */
  function StepEntries(n: nat, step: nat -> FrameView -> FrameView, book: map<nat, FrameView>)
    : (r: map<nat, FrameView>)
    ensures forall k: nat :: k < n ==> ViewAt(r, k) == step(k)(ViewAt(book, k))
    ensures forall k: nat :: k >= n ==> ViewAt(r, k) == ViewAt(book, k)
    decreases n
  {
    if n == 0 then book
    else StepEntry(n - 1, step(n - 1), StepEntries(n - 1, step, book))
  }

  /** `updateFrames(now)`: every layer takes its turn on its own entry of
      the frame map, keyed by its position in the layer list. */
  function UpdateFrames(now: real, layers: seq<PlacedLayer>, book: map<nat, FrameView>)
    : (r: map<nat, FrameView>)
    ensures forall k: nat :: k >= |layers| ==> ViewAt(r, k) == ViewAt(book, k)
  {
    StepEntries(|layers|, LayerTurn(now, layers), book)
  }

  /** Layer `k`'s turn, as a function of its current view. */
  function LayerTurn(now: real, layers: seq<PlacedLayer>): nat -> FrameView -> FrameView {
    (k: nat) => (v: FrameView) => if k < |layers| then StepView(now, layers[k], v) else v
  }

  /** Every layer is stepped on its own entry, from the view it had before
      the update. */
  lemma UpdateFramesSteps(now: real, layers: seq<PlacedLayer>, book: map<nat, FrameView>, k: nat)
    requires k < |layers|
    ensures ViewAt(UpdateFrames(now, layers, book), k) == StepView(now, layers[k], ViewAt(book, k))
  {
    assert LayerTurn(now, layers)(k)(ViewAt(book, k)) == StepView(now, layers[k], ViewAt(book, k));
  }

  /** Running the update twice at the same instant leaves every layer as
      the first run left it. */
  lemma UpdateFramesIdempotent(now: real, layers: seq<PlacedLayer>, book: map<nat, FrameView>, k: nat)
    ensures ViewAt(UpdateFrames(now, layers, UpdateFrames(now, layers, book)), k)
         == ViewAt(UpdateFrames(now, layers, book), k)
  {
    if k < |layers| {
      UpdateFramesSteps(now, layers, book, k);
      UpdateFramesSteps(now, layers, UpdateFrames(now, layers, book), k);
      StepViewIdempotent(now, layers[k], ViewAt(book, k));
    }
  }
}

=== FILE: layout.dfy ===
/** Start-up layout (script.js, `generateLayers`): each layer descriptor is
    resolved into a placed layer with a concrete position, walking the list
    in order with a running horizontal cursor for layers that give no `x`.
    Element creation and the `dataset` string round trip are not modelled;
    the resolved numbers are kept directly. */
module Layout {
  import opened Basics
  import opened Text

  /** The three `type` values the layer list may use. Any other value leaves
      the element undefined in the original code; that path is not modelled. */
  datatype Kind = ImageLayer | TextLayer | VideoLayer

  /** One entry of the layer list. `classes` is the space-separated class
      string (empty when absent); the other optional fields are `None` when
      the entry leaves them out. Sources, text content, sizes and the video
      poster only matter to the page and are not modelled. */
  datatype LayerDescriptor = LayerDescriptor(
    kind: Kind,
    classes: string,
    speed: Option<real>,
    x: Option<real>,
    y: Option<real>,
    rotate: Option<real>,
    frames: Option<seq<string>>,
    fps: Option<real>)

  /** The spacing settings the layout reads. */
  datatype Spacing = Spacing(horizontal: real, startOffset: real, verticalMin: real, verticalMax: real)

  /** A layer as the render loop sees it: the resolved speed, position and
      rotation, whether it carries the `spinning` class, the frame list as
      the joined string stored on the element (empty when there is none)
      and the frame rate stored on it, if any. */
  datatype PlacedLayer = PlacedLayer(
    kind: Kind,
    spinning: bool,
    speed: real,
    x: real,
    y: real,
    rotate: real,
    frames: string,
    fps: Option<real>)

  /** Fraction of `horizontal` the cursor moves after each auto-placed layer. */
  const AutoAdvance: real := 0.85
  /** Phase of the vertical wave per list position and per pixel of cursor. */
  const WavePerIndex: real := 0.6
  const WavePerPixel: real := 0.0005
  /** The class that makes a layer rotate with time instead of with scroll. */
  const SpinningClass: string := "spinning"
  /** The glue the frame list is stored with. */
  const FrameGlue: string := ", "

  /** `Math.max(verticalMin, Math.min(v, verticalMax))`. When the bounds are
      crossed the lower bound wins (unlike `clamp`, where the upper one does). */
  function ClampY(v: real, sp: Spacing): (y: real)
    ensures sp.verticalMin <= y
    ensures sp.verticalMin <= sp.verticalMax ==> y <= sp.verticalMax
    ensures sp.verticalMin <= v <= sp.verticalMax ==> y == v
    ensures sp.verticalMin <= sp.verticalMax < v ==> y == sp.verticalMax
    ensures v < sp.verticalMin ==> y == sp.verticalMin
    ensures sp.verticalMax < sp.verticalMin ==> y == sp.verticalMin
  {
    Max(sp.verticalMin, Min(v, sp.verticalMax))
  }

  /** The automatic height before clamping: the wave value
      `sine(index * 0.6 + autoX * 0.0005) * 0.5 + 0.5` scaled into the
      vertical range. `sine` stands for `Math.sin` and may be any function. */
  function AutoY(index: nat, autoX: real, sp: Spacing, sine: real -> real): (y: real)
    ensures -1.0 <= sine(WavePhase(index, autoX)) <= 1.0 && sp.verticalMin <= sp.verticalMax ==>
              sp.verticalMin <= y <= sp.verticalMax
    ensures sine(WavePhase(index, autoX)) == -1.0 ==> y == sp.verticalMin
    ensures sine(WavePhase(index, autoX)) == 0.0 ==> y == (sp.verticalMin + sp.verticalMax) / 2.0
    ensures sine(WavePhase(index, autoX)) == 1.0 ==> y == sp.verticalMax
    ensures y == (sp.verticalMin + sp.verticalMax) / 2.0
                 + (sp.verticalMax - sp.verticalMin) / 2.0 * sine(WavePhase(index, autoX))
  {
    var wave := sine(WavePhase(index, autoX)) * 0.5 + 0.5;
    var lift := (sp.verticalMax - sp.verticalMin) * wave;
    ScaledWithin(sp.verticalMax - sp.verticalMin, wave, lift);
    sp.verticalMin + lift
  }

  /** The argument the wave is sampled at: `index * 0.6 + autoX * 0.0005`. */
  function WavePhase(index: nat, autoX: real): real {
    index as real * WavePerIndex + autoX * WavePerPixel
  }

  /** The body of the `forEach` for the layer at position `index`, with the
      cursor standing at `autoX`. */
  function Place(d: LayerDescriptor, index: nat, autoX: real, sp: Spacing, sine: real -> real): (p: PlacedLayer)
    ensures p.kind == d.kind
    ensures sp.verticalMin <= p.y
    ensures sp.verticalMin <= sp.verticalMax ==> p.y <= sp.verticalMax
    ensures d.x.Some? ==> p.x == d.x.value
    ensures d.x.None? ==> p.x == autoX
    ensures d.y.Some? && sp.verticalMin <= d.y.value <= sp.verticalMax ==> p.y == d.y.value
    ensures d.y.Some? && sp.verticalMin <= sp.verticalMax < d.y.value ==> p.y == sp.verticalMax
    ensures d.y.Some? && d.y.value < sp.verticalMin ==> p.y == sp.verticalMin
    ensures d.y.None? ==> p.y == ClampY(AutoY(index, autoX, sp, sine), sp)
    ensures p.speed != 0.0
    ensures d.speed.Some? && d.speed.value != 0.0 ==> p.speed == d.speed.value
    ensures d.speed.None? || d.speed.value == 0.0 ==> p.speed == 1.0
    ensures p.rotate == d.rotate.GetOr(0.0)
    ensures p.fps.Some? ==> p.fps.value != 0.0
    ensures p.fps.Some? <==> d.fps.Some? && d.fps.value != 0.0
    ensures p.fps.Some? ==> p.fps == d.fps
    ensures p.spinning <==> SpinningClass in Split(d.classes, ' ')
    ensures d.frames.None? ==> p.frames == ""
    ensures d.frames.Some? ==> p.frames == Join(d.frames.value, FrameGlue)
  {
    var y := if d.y.Some? then d.y.value else AutoY(index, autoX, sp, sine);
    PlacedLayer(
      d.kind,
      SpinningClass in Split(d.classes, ' '),
      if d.speed.Some? && d.speed.value != 0.0 then d.speed.value else 1.0,
      if d.x.Some? then d.x.value else autoX,
      ClampY(y, sp),
      if d.rotate.Some? then d.rotate.value else 0.0,
      if d.frames.Some? then Join(d.frames.value, FrameGlue) else "",
      if d.fps.Some? && d.fps.value != 0.0 then d.fps else None)
  }

  /** How many of the first `n` layers take their `x` from the cursor. */
  function AutoCount(descs: seq<LayerDescriptor>, n: nat): (count: nat)
    requires n <= |descs|
    ensures count <= n
    decreases n
  {
    if n == 0 then 0
    else AutoCount(descs, n - 1) + (if descs[n - 1].x.None? then 1 else 0)
  }

  /** `autoX` once the first `n` layers are placed: it starts at
      `startOffset + horizontal` and moves `0.85 * horizontal` after each
      layer that has no `x`. */
  function Cursor(sp: Spacing, descs: seq<LayerDescriptor>, n: nat): (c: real)
    requires n <= |descs|
    ensures sp.horizontal >= 0.0 ==> c >= sp.startOffset + sp.horizontal
    decreases n
  {
    if n == 0 then sp.startOffset + sp.horizontal
    else Cursor(sp, descs, n - 1) + (if descs[n - 1].x.None? then AutoAdvance * sp.horizontal else 0.0)
  }

  /** Closed form of the cursor: the start plus one step per layer without
      `x` so far. Layers with an explicit `x` neither advance nor reset it. */
  lemma {:induction false} CursorCountsAutoPlaced(sp: Spacing, descs: seq<LayerDescriptor>, n: nat)
    requires n <= |descs|
    ensures Cursor(sp, descs, n) ==
            sp.startOffset + sp.horizontal + AutoAdvance * sp.horizontal * (AutoCount(descs, n) as real)
    decreases n
  {
    if n > 0 {
      CursorCountsAutoPlaced(sp, descs, n - 1);
    }
  }

  /** The first `n` layers placed in list order, each at the cursor the
      layers before it leave. */
  function PlaceFirst(descs: seq<LayerDescriptor>, sp: Spacing, sine: real -> real, n: nat)
    : (placed: seq<PlacedLayer>)
    requires n <= |descs|
    ensures |placed| == n
    decreases n
  {
    if n == 0 then []
    else PlaceFirst(descs, sp, sine, n - 1) + [Place(descs[n - 1], n - 1, Cursor(sp, descs, n - 1), sp, sine)]
  }

  /** Layer `i` of the list is placed from its own descriptor, at its
      position, with the cursor the layers before it leave. */
  lemma {:induction false} PlaceFirstAt(descs: seq<LayerDescriptor>, sp: Spacing, sine: real -> real, n: nat, i: nat)
    requires i < n <= |descs|
    ensures PlaceFirst(descs, sp, sine, n)[i] == Place(descs[i], i, Cursor(sp, descs, i), sp, sine)
    decreases n
  {
    if i < n - 1 {
      PlaceFirstAt(descs, sp, sine, n - 1, i);
    }
  }

  /** `generateLayers`: one placed layer per descriptor, in order. */
  method GenerateLayers(descs: seq<LayerDescriptor>, sp: Spacing, sine: real -> real)
    returns (placed: seq<PlacedLayer>)
    ensures |placed| == |descs|
    ensures forall i :: 0 <= i < |descs| ==>
              placed[i] == Place(descs[i], i, Cursor(sp, descs, i), sp, sine)
    ensures forall i :: 0 <= i < |descs| && descs[i].x.None? ==> placed[i].x == Cursor(sp, descs, i)
    ensures forall i :: 0 <= i < |descs| && descs[i].x.Some? ==> placed[i].x == descs[i].x.value
    ensures sp.verticalMin <= sp.verticalMax ==>
              forall i :: 0 <= i < |placed| ==> sp.verticalMin <= placed[i].y <= sp.verticalMax
  {
    var autoX := sp.startOffset + sp.horizontal;
    placed := [];
    var i := 0;
    while i < |descs|
      invariant 0 <= i <= |descs|
      invariant autoX == Cursor(sp, descs, i)
      invariant placed == PlaceFirst(descs, sp, sine, i)
    {
      placed := placed + [Place(descs[i], i, autoX, sp, sine)];
      if descs[i].x.None? {
        autoX := autoX + AutoAdvance * sp.horizontal;
      }
      i := i + 1;
    }
    forall k | 0 <= k < |descs|
      ensures placed[k] == Place(descs[k], k, Cursor(sp, descs, k), sp, sine)
    {
      PlaceFirstAt(descs, sp, sine, |descs|, k);
    }
  }

  /** The count of auto-placed layers strictly grows past an auto-placed
      layer. */
  lemma {:induction false} AutoCountGrows(descs: seq<LayerDescriptor>, i: nat, j: nat)
    requires i < j <= |descs|
    requires descs[i].x.None?
    ensures AutoCount(descs, i) < AutoCount(descs, j)
    decreases j
  {
    if j > i + 1 {
      AutoCountGrows(descs, i, j - 1);
    }
  }

  /** With a positive spacing, once a layer has taken its `x` from the
      cursor, the cursor at every later position lies at least one step
      (`0.85 * horizontal`) further right: auto-placed layers appear left to
      right in list order. */
  lemma AutoPlacedInOrder(descs: seq<LayerDescriptor>, sp: Spacing, i: nat, j: nat)
    requires sp.horizontal > 0.0
    requires i < j <= |descs|
    requires descs[i].x.None?
    ensures Cursor(sp, descs, j) - Cursor(sp, descs, i) >= AutoAdvance * sp.horizontal
  {
    AutoCountGrows(descs, i, j);
    CursorCountsAutoPlaced(sp, descs, i);
    CursorCountsAutoPlaced(sp, descs, j);
    var a := AutoCount(descs, i) as real;
    var b := AutoCount(descs, j) as real;
    MulNonneg(AutoAdvance * sp.horizontal, b - a - 1.0);
  }

  /** The spacing settings of the shipped configuration (config.js). */
  const ShippedSpacing: Spacing := Spacing(380.0, 800.0, 60.0, 600.0)

  /** The shipped "GET STARTED" tag asks for `y: 720`, beyond
      `verticalMax`; it is placed at 600 whatever the wave. */
  lemma ShippedTagClampedToBand(sine: real -> real, index: nat, autoX: real)
    ensures Place(LayerDescriptor(TextLayer, "tag alt", Some(0.8), Some(5240.0), Some(720.0), None, None, None),
                  index, autoX, ShippedSpacing, sine).y == 600.0
  {
  }
}

=== FILE: overlay.dfy ===
/** Values derived from the scroll state once per frame: the normalised
    progress through the scene, the start-screen fade, the end-screen reveal
    and whether the end screen accepts pointer input (script.js, `render`). */
module Overlay {
  import opened Basics
  import opened Scroll

  /** Where the end-screen reveal window opens and closes, as fractions of
      the whole scroll. */
  const RevealStart: real := 0.76
  const RevealEnd: real := 0.94
  /** The reveal level above which the end screen becomes interactive. */
  const InteractiveAbove: real := 0.9
  /** The progress at which the reveal crosses `InteractiveAbove`:
      `RevealStart + InteractiveAbove * (RevealEnd - RevealStart)`. */
  const InteractiveProgress: real := 0.922

  /** `state.max ? state.current / state.max : 0`. */
  function Progress(s: ScrollState): (p: real)
    ensures s.max == 0.0 || s.current == 0.0 ==> p == 0.0
    ensures s.max != 0.0 ==> p * s.max == s.current
    ensures InBounds(s) ==> 0.0 <= p <= 1.0
    ensures InBounds(s) && s.max > 0.0 ==> (p == 1.0 <==> s.current == s.max)
  {
    if s.max != 0.0 then
      FractionOfExtent(s.current, s.max);
      s.current / s.max
    else 0.0
  }

  /** The arithmetic behind `Progress`: the fraction scales back to the
      part, lies in [0, 1] for a part of a positive whole, and is 1 only for
      the whole. */
  lemma FractionOfExtent(a: real, m: real)
    requires m != 0.0
    ensures (a / m) * m == a
    ensures 0.0 <= a <= m ==> 0.0 <= a / m <= 1.0
    ensures m > 0.0 ==> (a / m == 1.0 <==> a == m)
  {
    if 0.0 <= a <= m {
      UnitFraction(a, m);
    }
  }

  /** Progress never decreases as the view moves right over a fixed extent. */
  lemma ProgressMonotone(a: ScrollState, b: ScrollState)
    requires a.max == b.max && a.max >= 0.0
    requires a.current <= b.current
    ensures Progress(a) <= Progress(b)
  {
    if a.max > 0.0 {
      MulNonneg(b.current - a.current, 1.0 / a.max);
    }
  }

  /** Start-screen opacity: `clamp(1 - progress * 6, 0, 1)`. */
  function StartFade(progress: real): (f: real)
    ensures 0.0 <= f <= 1.0
    ensures progress <= 0.0 ==> f == 1.0
    ensures progress >= 1.0 / 6.0 ==> f == 0.0
    ensures 0.0 < progress < 1.0 / 6.0 ==> 0.0 < f < 1.0
  {
    Clamp(1.0 - progress * 6.0, 0.0, 1.0)
  }

  /** The start screen only ever fades out as progress grows. */
  lemma StartFadeNonIncreasing(p: real, q: real)
    requires p <= q
    ensures StartFade(q) <= StartFade(p)
  {
    ClampMonotone(1.0 - q * 6.0, 1.0 - p * 6.0, 0.0, 1.0);
  }

  /** Inside `[0, 1/6]` the start screen fades linearly: each step of
      progress takes away six times as much opacity. */
  lemma StartFadeLinear(p: real, q: real)
    requires 0.0 <= p <= q <= 1.0 / 6.0
    ensures StartFade(p) - StartFade(q) == 6.0 * (q - p)
    ensures StartFade(p) == 1.0 - 6.0 * p
  {
  }

  /** End-screen opacity: `clamp((progress - start) / (end - start), 0, 1)`. */
  function EndReveal(progress: real): (v: real)
    ensures 0.0 <= v <= 1.0
    ensures progress <= RevealStart ==> v == 0.0
    ensures progress >= RevealEnd ==> v == 1.0
    ensures RevealStart < progress < RevealEnd ==> 0.0 < v < 1.0
  {
    Clamp((progress - RevealStart) / (RevealEnd - RevealStart), 0.0, 1.0)
  }

  /** The end screen only ever becomes more visible as progress grows. */
  lemma EndRevealNonDecreasing(p: real, q: real)
    requires p <= q
    ensures EndReveal(p) <= EndReveal(q)
  {
    ClampMonotone((p - RevealStart) / (RevealEnd - RevealStart),
                  (q - RevealStart) / (RevealEnd - RevealStart), 0.0, 1.0);
  }

  /** Inside the reveal window the end screen appears linearly, reaching
      full opacity over the window's width. */
  lemma EndRevealLinear(p: real, q: real)
    requires RevealStart <= p <= q <= RevealEnd
    ensures EndReveal(q) - EndReveal(p) == (q - p) / (RevealEnd - RevealStart)
    ensures EndReveal(p) == (p - RevealStart) / (RevealEnd - RevealStart)
  {
  }

  /** `pointerEvents` is `"auto"` exactly when the reveal exceeds 0.9. */
  predicate EndInteractive(progress: real) {
    EndReveal(progress) > InteractiveAbove
  }

  /** The end screen is interactive exactly when progress is past 0.922,
      well inside the reveal window. */
  lemma EndInteractiveThreshold(progress: real)
    ensures EndInteractive(progress) <==> progress > InteractiveProgress
  {
  }

  /** Under the clamping invariant both overlays read a progress in [0, 1]:
      at the start of the scene the start screen is fully shown and the end
      screen hidden; at the end the reverse. */
  lemma OverlaysAtEnds(s: ScrollState)
    requires InBounds(s)
    ensures s.current == 0.0 ==> StartFade(Progress(s)) == 1.0 && EndReveal(Progress(s)) == 0.0
    ensures s.max > 0.0 && s.current == s.max ==>
              StartFade(Progress(s)) == 0.0 && EndReveal(Progress(s)) == 1.0 && EndInteractive(Progress(s))
  {
  }
}

=== FILE: scroll.dfy ===
/** The scroll state record and the three things that change it: the
    viewport resize handler, the wheel and arrow-key handlers, and the
    easing step at the top of every rendered frame (script.js). Numbers are
    exact reals; the browser's doubles are not modelled. */
module Scroll {
  import opened Basics

  /** `target` is where input wants the view to be, `current` is where the
      view is drawn, `max` is the scrollable extent and `ease` the fraction
      of the remaining distance covered per frame. */
  datatype ScrollState = ScrollState(target: real, current: real, max: real, ease: real)

  /** Pixels moved by one arrow-key press. */
  const KeyStep: real := 120.0
  /** Below this distance the easing snaps `current` onto `target`. */
  const SnapDistance: real := 0.1

  /** The record as the program creates it. */
  const Initial: ScrollState := ScrollState(0.0, 0.0, 0.0, 0.08)

  /** The clamping invariant: both offsets lie in `[0, max]`. */
  predicate InBounds(s: ScrollState) {
    0.0 <= s.target <= s.max && 0.0 <= s.current <= s.max
  }

  /** The clamping invariant together with a per-frame easing factor in
      `(0, 1]` (the factor is never changed after start-up). */
  predicate Valid(s: ScrollState) {
    InBounds(s) && 0.0 < s.ease <= 1.0
  }

  lemma InitialValid()
    ensures Valid(Initial)
  {
  }

  /** `updateBounds`: the scrollable extent is the scene width beyond the
      viewport, never negative, and both offsets are clamped into it. The
      widths come from the browser's layout and are parameters here. */
  function Resize(s: ScrollState, sceneWidth: real, innerWidth: real): (r: ScrollState)
    ensures r.max >= 0.0 && r.max >= sceneWidth - innerWidth
    ensures r.max == 0.0 || r.max == sceneWidth - innerWidth
    ensures InBounds(r)
    ensures r.ease == s.ease
    ensures 0.0 <= s.target <= r.max ==> r.target == s.target
    ensures 0.0 <= s.current <= r.max ==> r.current == s.current
    ensures s.target < 0.0 ==> r.target == 0.0
    ensures s.target > r.max ==> r.target == r.max
    ensures s.current < 0.0 ==> r.current == 0.0
    ensures s.current > r.max ==> r.current == r.max
  {
    var max := Max(0.0, sceneWidth - innerWidth);
    s.(max := max, target := Clamp(s.target, 0.0, max), current := Clamp(s.current, 0.0, max))
  }

  /** Resizing twice to the same widths is the same as resizing once. */
  lemma ResizeIdempotent(s: ScrollState, sceneWidth: real, innerWidth: real)
    ensures Resize(Resize(s, sceneWidth, innerWidth), sceneWidth, innerWidth)
         == Resize(s, sceneWidth, innerWidth)
  {
  }

  /** `event.deltaY || event.deltaX`: the vertical delta, or the horizontal
      one when the vertical delta is zero. */
  function WheelDelta(deltaX: real, deltaY: real): (d: real)
    ensures deltaY != 0.0 ==> d == deltaY
    ensures deltaY == 0.0 ==> d == deltaX
  {
    if deltaY != 0.0 then deltaY else deltaX
  }

  /** `onWheel`: the delta moves the target, clamped to `[0, max]`. */
  function Wheel(s: ScrollState, deltaX: real, deltaY: real): (r: ScrollState)
    ensures r.current == s.current && r.max == s.max && r.ease == s.ease
    ensures s.max >= 0.0 ==> 0.0 <= r.target <= r.max
    ensures InBounds(s) ==> InBounds(r)
    ensures 0.0 <= s.target + WheelDelta(deltaX, deltaY) <= s.max
            ==> r.target == s.target + WheelDelta(deltaX, deltaY)
    ensures s.max >= 0.0 && s.target + WheelDelta(deltaX, deltaY) < 0.0 ==> r.target == 0.0
    ensures s.target + WheelDelta(deltaX, deltaY) > s.max ==> r.target == s.max
  {
    s.(target := Clamp(s.target + WheelDelta(deltaX, deltaY), 0.0, s.max))
  }

  /** Within bounds, a wheel turn never moves the target against the
      direction of its delta. */
  lemma WheelFollowsDelta(s: ScrollState, deltaX: real, deltaY: real)
    requires InBounds(s)
    ensures WheelDelta(deltaX, deltaY) >= 0.0 ==> Wheel(s, deltaX, deltaY).target >= s.target
    ensures WheelDelta(deltaX, deltaY) <= 0.0 ==> Wheel(s, deltaX, deltaY).target <= s.target
  {
  }

  predicate IsForwardKey(key: string) {
    key == "ArrowRight" || key == "ArrowDown"
  }

  predicate IsBackKey(key: string) {
    key == "ArrowLeft" || key == "ArrowUp"
  }

  /** `onKey`: right/down add one step, left/up subtract one, each clamped;
      the two tests run one after the other as in the handler. */
  function Key(s: ScrollState, key: string): (r: ScrollState)
    ensures r.current == s.current && r.max == s.max && r.ease == s.ease
    ensures !IsForwardKey(key) && !IsBackKey(key) ==> r == s
    ensures InBounds(s) && IsForwardKey(key) ==> r.target == Min(s.target + KeyStep, s.max)
    ensures InBounds(s) && IsBackKey(key) ==> r.target == Max(s.target - KeyStep, 0.0)
    ensures s.max >= 0.0 && (IsForwardKey(key) || IsBackKey(key)) ==> 0.0 <= r.target <= r.max
    ensures InBounds(s) ==> InBounds(r)
  {
    var s1 := if IsForwardKey(key) then s.(target := Clamp(s.target + KeyStep, 0.0, s.max)) else s;
    if IsBackKey(key) then s1.(target := Clamp(s1.target - KeyStep, 0.0, s1.max)) else s1
  }

  /** A step forward followed by a step back returns to the same state when
      the forward step was not cut short by the end of the scene. */
  lemma KeyForwardBack(s: ScrollState, forward: string, back: string)
    requires InBounds(s) && s.target + KeyStep <= s.max
    requires IsForwardKey(forward) && IsBackKey(back)
    ensures Key(Key(s, forward), back) == s
  {
  }

  /** The first half of `render`: move `current` a fraction `ease` of the way
      to `target`, and snap onto `target` once closer than `SnapDistance`. */
  function Tick(s: ScrollState): (r: ScrollState)
    ensures r.target == s.target && r.max == s.max && r.ease == s.ease
    ensures Abs(r.target - r.current) >= SnapDistance || r.current == r.target
    ensures 0.0 <= s.ease <= 1.0 ==>
              (s.current <= r.current <= s.target || s.target <= r.current <= s.current)
    ensures 0.0 <= s.ease <= 1.0 ==> Abs(r.target - r.current) <= Abs(s.target - s.current)
    ensures 0.0 <= s.ease <= 1.0 && Abs(s.target - s.current) < SnapDistance ==> r.current == s.target
    ensures r.current == s.target ||
            r.target - r.current == (1.0 - s.ease) * (s.target - s.current)
    ensures 0.0 <= s.ease <= 1.0 ==>
              (r.current == s.target <==> (1.0 - s.ease) * Abs(s.target - s.current) < SnapDistance)
    ensures 0.0 <= s.ease <= 1.0 && (1.0 - s.ease) * Abs(s.target - s.current) >= SnapDistance ==>
              r.target - r.current == (1.0 - s.ease) * (s.target - s.current)
    ensures Valid(s) ==> Valid(r)
  {
    var eased := Eased(s.current, s.target, s.ease);
    EasedGap(s.current, s.target, s.ease);
    if Abs(s.target - eased) < SnapDistance then s.(current := s.target)
    else s.(current := eased)
  }

  /** `current + (target - current) * ease`: one easing step, without the
      snap. */
  function Eased(current: real, target: real, ease: real): (r: real)
    ensures 0.0 <= ease <= 1.0 && current <= target ==> current <= r <= target
    ensures 0.0 <= ease <= 1.0 && target <= current ==> target <= r <= current
    ensures target - r == (1.0 - ease) * (target - current)
  {
    var r := current + (target - current) * ease;
    EasedStep(current, target, ease, r);
    r
  }

  /** The arithmetic behind `Eased`, one sign of the distance at a time. */
  lemma EasedStep(current: real, target: real, ease: real, r: real)
    requires r == current + (target - current) * ease
    ensures 0.0 <= ease <= 1.0 && current <= target ==> current <= r <= target
    ensures 0.0 <= ease <= 1.0 && target <= current ==> target <= r <= current
    ensures target - r == (1.0 - ease) * (target - current)
  {
    var d := target - current;
    if 0.0 <= ease <= 1.0 {
      if d >= 0.0 {
        MulNonneg(d, ease);
        MulNonneg(d, 1.0 - ease);
      } else {
        MulNonneg(-d, ease);
        MulNonneg(-d, 1.0 - ease);
      }
    }
  }

  /** After one easing step the distance left is `1 - ease` times the
      distance before it. */
  lemma EasedGap(current: real, target: real, ease: real)
    ensures ease <= 1.0 ==> Abs(target - Eased(current, target, ease)) == (1.0 - ease) * Abs(target - current)
  {
    if ease <= 1.0 {
      AbsScaled(1.0 - ease, target - current);
    }
  }

  /** `n` successive frames with no input in between. */
  function Ticks(s: ScrollState, n: nat): (r: ScrollState)
    ensures r.target == s.target && r.max == s.max && r.ease == s.ease
    ensures Valid(s) ==> Valid(r)
    decreases n
  {
    if n == 0 then s else Ticks(Tick(s), n - 1)
  }

  /** A whole number that every frame not yet at rest decreases: the gap
      measured in units of the smallest step the easing can take while the
      gap is at least `SnapDistance`. */
  function RestMeasure(s: ScrollState): nat
    requires 0.0 < s.ease <= 1.0
  {
    var q := Abs(s.target - s.current) / (s.ease * SnapDistance);
    if q.Floor < 0 then 0 else q.Floor
  }

  lemma DivideStep(a: real, b: real, k: real)
    requires k > 0.0 && a <= b - k
    ensures a / k <= b / k - 1.0
  {
    assert b / k - 1.0 == (b - k) / k;
    MulNonneg(b - k - a, 1.0 / k);
  }

  /** Easing convergence: with the target held fixed, finitely many frames
      bring `current` exactly onto `target`. */
  lemma {:induction false} EasingReachesTarget(s: ScrollState)
    requires 0.0 < s.ease <= 1.0
    ensures exists n: nat :: Ticks(s, n).current == s.target
    decreases RestMeasure(s)
  {
    var t := Tick(s);
    if t.current == s.target {
      assert Ticks(s, 1) == Ticks(t, 0);
    } else {
      var g := Abs(s.target - s.current);
      var g' := Abs(t.target - t.current);
      var k := s.ease * SnapDistance;
      assert g' == (1.0 - s.ease) * g;
      assert g >= SnapDistance;
      assert g' == g - s.ease * g;
      MulNonneg(s.ease, g - SnapDistance);
      assert g' <= g - k;
      DivideStep(g', g, k);
      assert (g' / k).Floor <= (g / k - 1.0).Floor;
      assert RestMeasure(t) < RestMeasure(s);
      EasingReachesTarget(t);
      var n: nat :| Ticks(t, n).current == t.target;
      assert Ticks(s, n + 1) == Ticks(t, n);
    }
  }
}

=== FILE: text.dfy ===
/** The string operations the frame list passes through: `Array.join`,
    `String.split` on one character and `String.trim` with ECMAScript's set
    of white-space and line-terminator characters. */
module Text {

  /** ECMAScript WhiteSpace and LineTerminator code points, which `trim`
      removes. */
  predicate IsSpace(c: char) {
    c == ' ' || c == '\t' || c == '\n' || c == '\r' || c == '\U{000B}' || c == '\U{000C}' ||
    c == '\U{00A0}' || c == '\U{1680}' || ('\U{2000}' <= c <= '\U{200A}') ||
    c == '\U{2028}' || c == '\U{2029}' || c == '\U{202F}' || c == '\U{205F}' ||
    c == '\U{3000}' || c == '\U{FEFF}'
  }

  /** Neither the first nor the last character is white space. */
  predicate EdgeClean(s: string) {
    |s| == 0 || (!IsSpace(s[0]) && !IsSpace(s[|s| - 1]))
  }

  /** `parts.join(glue)`. */
  function Join(parts: seq<string>, glue: string): string
    decreases |parts|
  {
    if |parts| == 0 then ""
    else if |parts| == 1 then parts[0]
    else parts[0] + glue + Join(parts[1..], glue)
  }

  /** `s.split(sep)` for a one-character separator: the maximal pieces
      between separators, always at least one. */
  function Split(s: string, sep: char): (parts: seq<string>)
    ensures |parts| >= 1
    ensures forall i :: 0 <= i < |parts| ==> sep !in parts[i]
    ensures Join(parts, [sep]) == s
    decreases |s|
  {
    if |s| == 0 then [""]
    else
      var rest := Split(s[1..], sep);
      if s[0] == sep then
        assert Join([""] + rest, [sep]) == [sep] + Join(rest, [sep]) by {
          assert ([""] + rest)[1..] == rest;
        }
        [""] + rest
      else
        var parts := [[s[0]] + rest[0]] + rest[1..];
        assert Join(parts, [sep]) == [s[0]] + Join(rest, [sep]) by {
          if |rest| > 1 {
            assert parts[1..] == rest[1..];
          }
        }
        parts
  }

  /** Leading white space removed. */
  function TrimStart(s: string): (r: string)
    ensures |r| <= |s| && r == s[|s| - |r|..]
    ensures forall k :: 0 <= k < |s| - |r| ==> IsSpace(s[k])
    ensures |r| == 0 || !IsSpace(r[0])
    decreases |s|
  {
    if |s| > 0 && IsSpace(s[0]) then TrimStart(s[1..]) else s
  }

  /** Trailing white space removed. */
  function TrimEnd(s: string): (r: string)
    ensures |r| <= |s| && r == s[..|r|]
    ensures forall k :: |r| <= k < |s| ==> IsSpace(s[k])
    ensures |r| == 0 || !IsSpace(r[|r| - 1])
    decreases |s|
  {
    if |s| > 0 && IsSpace(s[|s| - 1]) then TrimEnd(s[..|s| - 1]) else s
  }

  /** Every character of `s` before index `a` or from index `b` on is
      white space. */
  predicate SpaceOutside(s: string, a: nat, b: nat)
    requires a <= b <= |s|
  {
    (forall k :: 0 <= k < a ==> IsSpace(s[k])) && (forall k :: b <= k < |s| ==> IsSpace(s[k]))
  }

  /** `s.trim()`: white space removed at both ends (`TrimEnd` and
      `TrimStart` say which characters go); what remains has clean edges. */
  function Trim(s: string): (r: string)
    ensures EdgeClean(r)
    ensures |r| <= |s|
    ensures forall c :: c in r ==> c in s
    ensures exists a, b :: 0 <= a <= b <= |s| && r == s[a..b] && SpaceOutside(s, a, b)
  {
    TrimmedSlice(s);
    TrimStart(TrimEnd(s))
  }

  /** Trimming both ends leaves the slice of `s` between its leading and
      its trailing white space. */
  lemma TrimmedSlice(s: string)
    ensures var e := TrimEnd(s); var r := TrimStart(e);
            r == s[|e| - |r|..|e|] && SpaceOutside(s, |e| - |r|, |e|) && forall c :: c in r ==> c in s
  {
    var e := TrimEnd(s);
    var r := TrimStart(e);
    assert e == s[..|e|];
    forall k | 0 <= k < |e| - |r|
      ensures IsSpace(s[k])
    {
      assert s[k] == e[k];
    }
    assert SpaceOutside(s, |e| - |r|, |e|);
    assert r == e[|e| - |r|..];
    assert forall c :: c in r ==> c in e;
  }

  /** Text whose edges are already clean is left alone by `trim`. */
  lemma TrimClean(s: string)
    requires EdgeClean(s)
    ensures Trim(s) == s
  {
  }

  /** One leading space in front of edge-clean text is exactly what `trim`
      takes away. */
  lemma TrimAfterSpace(s: string)
    requires EdgeClean(s)
    ensures Trim(" " + s) == s
  {
    var t := " " + s;
    if |s| == 0 {
      assert TrimEnd(t) == "";
    } else {
      assert TrimEnd(t) == t;
      assert t[1..] == s;
    }
  }

  /** A piece without the separator splits to itself. */
  lemma {:induction false} SplitWithoutSeparator(s: string, sep: char)
    requires sep !in s
    ensures Split(s, sep) == [s]
    decreases |s|
  {
    if |s| > 0 {
      SplitWithoutSeparator(s[1..], sep);
    }
  }

  /** Splitting text that starts with a separator-free piece and a separator
      peels that piece off. */
  lemma {:induction false} SplitAfterPiece(p: string, sep: char, tail: string)
    requires sep !in p
    ensures Split(p + [sep] + tail, sep) == [p] + Split(tail, sep)
    decreases |p|
  {
    var s := p + [sep] + tail;
    if |p| == 0 {
      assert s[1..] == tail;
    } else {
      assert s[1..] == p[1..] + [sep] + tail;
      SplitAfterPiece(p[1..], sep, tail);
      assert [p[0]] + p[1..] == p;
    }
  }

  /** `split` undoes `join` on the same separator when no piece contains
      it: the pair is a bijection between such lists and strings. */
  lemma {:induction false} SplitJoin(parts: seq<string>, sep: char)
    requires |parts| >= 1
    requires forall i :: 0 <= i < |parts| ==> sep !in parts[i]
    ensures Split(Join(parts, [sep]), sep) == parts
    decreases |parts|
  {
    if |parts| == 1 {
      SplitWithoutSeparator(parts[0], sep);
    } else {
      SplitJoin(parts[1..], sep);
      SplitAfterPiece(parts[0], sep, Join(parts[1..], [sep]));
      assert parts[0] + [sep] + Join(parts[1..], [sep]) == Join(parts, [sep]);
      assert [parts[0]] + parts[1..] == parts;
    }
  }
}

=== FILE: title.dfy ===
/** The title flourish (script.js, `updateTitle`): near the start of the
    scroll the title cycles through five fonts, at most one swap per 160 ms;
    further in, it shows the first font. */
module Title {
  import opened Basics

  /** The rotation of font stacks, in order. */
  const TitleFonts: seq<string> := [
    "\"Archivo Black\", \"Impact\", sans-serif",
    "\"Bungee\", \"Arial Black\", sans-serif",
    "\"Unbounded\", \"Arial\", sans-serif",
    "\"Syne\", \"Arial\", sans-serif",
    "\"Bodoni Moda\", \"Times New Roman\", serif"
  ]

  /** Minimum time in milliseconds between two swaps. */
  const SwapInterval: real := 160.0
  /** Progress below which the title is "at the start". */
  const StartZone: real := 0.03

  /** `fontIndex` and `lastFontSwap` of the program, and the font family last
      written to the title element (`None` before the first write). */
  datatype TitleState = TitleState(fontIndex: nat, lastFontSwap: real, font: Option<string>)

  const InitialTitle: TitleState := TitleState(0, 0.0, None)

  predicate TitleValid(t: TitleState) {
    t.fontIndex < |TitleFonts|
  }

  /** `updateTitle(now, progress)`; `present` says whether the title element
      exists in the page. */
  function UpdateTitle(present: bool, now: real, progress: real, t: TitleState): (r: TitleState)
    ensures !present ==> r == t
    ensures present && progress >= StartZone ==>
              r.fontIndex == t.fontIndex && r.lastFontSwap == t.lastFontSwap &&
              r.font == Some(TitleFonts[0])
    ensures present && progress < StartZone && now - t.lastFontSwap > SwapInterval ==>
              r.fontIndex == (t.fontIndex + 1) % |TitleFonts| && r.lastFontSwap == now &&
              r.font == Some(TitleFonts[r.fontIndex])
    ensures progress < StartZone && now - t.lastFontSwap <= SwapInterval ==> r == t
    ensures TitleValid(t) ==> TitleValid(r)
  {
    if !present then t
    else
      var atStart := progress < StartZone;
      var t1 :=
        if atStart && now - t.lastFontSwap > SwapInterval then
          var i := (t.fontIndex + 1) % |TitleFonts|;
          TitleState(i, now, Some(TitleFonts[i]))
        else t;
      if !atStart then t1.(font := Some(TitleFonts[0])) else t1
  }

  /** The frames of a run near the start of the scroll, as a list of frame
      times. */
  function RunTitle(present: bool, progress: real, t: TitleState, nows: seq<real>): (r: TitleState)
    ensures TitleValid(t) ==> TitleValid(r)
    decreases |nows|
  {
    if |nows| == 0 then t
    else RunTitle(present, progress, UpdateTitle(present, nows[0], progress, t), nows[1..])
  }

  /** Every frame time lies more than `SwapInterval` after the one before
      it, the first after `from`. */
  predicate Spaced(from: real, nows: seq<real>)
    decreases |nows|
  {
    |nows| == 0 || (from + SwapInterval < nows[0] && Spaced(nows[0], nows[1..]))
  }

  /** Near the start, with frames spaced beyond the debounce, every frame
      swaps: after `k` frames the index has moved `k` places round the
      five-font cycle and the last swap is the last frame. */
  lemma {:induction false} SpacedFramesCycleFonts(t: TitleState, progress: real, nows: seq<real>)
    requires TitleValid(t) && progress < StartZone
    requires Spaced(t.lastFontSwap, nows)
    ensures RunTitle(true, progress, t, nows).fontIndex == (t.fontIndex + |nows|) % |TitleFonts|
    ensures |nows| > 0 ==> RunTitle(true, progress, t, nows).lastFontSwap == nows[|nows| - 1]
    decreases |nows|
  {
    if |nows| > 0 {
      var t1 := UpdateTitle(true, nows[0], progress, t);
      assert nows[0] - t.lastFontSwap > SwapInterval;
      assert t1.lastFontSwap == nows[0];
      SpacedFramesCycleFonts(t1, progress, nows[1..]);
      assert |TitleFonts| == 5;
      assert t1.fontIndex == (t.fontIndex + 1) % 5;
      ModFiveShift(t.fontIndex, |nows[1..]|);
      assert RunTitle(true, progress, t, nows) == RunTitle(true, progress, t1, nows[1..]);
    }
  }

  lemma ModFiveShift(a: nat, k: nat)
    ensures ((a + 1) % 5 + k) % 5 == (a + 1 + k) % 5
  {
  }

  /** Away from the start the cycle is frozen: any run of frames keeps the
      index and the last swap time, and ends on the first font. */
  lemma {:induction false} PastStartFreezesCycle(t: TitleState, progress: real, nows: seq<real>)
    requires progress >= StartZone
    requires |nows| > 0
    ensures RunTitle(true, progress, t, nows).fontIndex == t.fontIndex
    ensures RunTitle(true, progress, t, nows).lastFontSwap == t.lastFontSwap
    ensures RunTitle(true, progress, t, nows).font == Some(TitleFonts[0])
    decreases |nows|
  {
    var t1 := UpdateTitle(true, nows[0], progress, t);
    if |nows| > 1 {
      PastStartFreezesCycle(t1, progress, nows[1..]);
    }
  }
}
